=== FILE: README.md ===
# track-requests in Dafny

A model of the core of track-requests, an Express middleware that records
every finished HTTP request as a tracking document in Elasticsearch.

- **Js** (`Js.dfy`) covers the JavaScript the library relies on:
  - values and truthiness;
  - property reads that throw a TypeError on `undefined`/`null`;
  - `||` and object spread;
  - log lines, as data.
- **EsClient** (`EsClient.dfy`) is the Elasticsearch client of `lib/elasticSearchClient.js`:
  - the constructor defaults (URL, index name, ten-field mapping);
  - the endpoint URLs;
  - the classification of `request` replies into settled promises;
  - the cleaned-document projection, as a function and as the loop the source runs;
  - `insertDocument`, `setMapping`, `getMapping` (with its 404 → create → re-fetch path) and `healthCheck`.

  HTTP is an oracle: each request the client issues takes the next reply of a given sequence.
- **Tracking** (`Tracking.dfy`) is the `Tracker` of `lib/tracker.js`:
  - the ten default getters, in the order the document literal calls them;
  - caller overrides, merged like `{...defaults, ...opts.getters}`;
  - extra fields spread last;
  - the default `generateTrackingDoc`, which turns any throw into one log line and an undefined document;
  - a replacement generator, which is used as is.
- **Middleware** (`Middleware.dfy`) is `requestsTracker` of `lib/index.js`, as a state machine over three events:
  - the middleware is entered;
  - a response finishes;
  - the health check settles.

  It models the active/disabled gate, one `next()` per request, and one document per finished request while active.
- **Examples** (`Examples.dfy`) states two scenarios of `test/trackerTests.js` as lemmas about the model.

The clock is a parameter: the `now` of a getter call, and the `now` of an event.

## Model

| member | source | states |
|---|---|---|
| EsClient.NewClient | lib/elasticSearchClient.js:16-31 | an absent or empty URL or index name falls back to `http://127.0.0.1:9200/` / `tracking`, a non-empty one is kept; a supplied mapping (even `{}`) replaces the default one wholesale, an absent one gives the ten-field default; URL and index name are never empty |
| EsClient.Url | lib/elasticSearchClient.js:35-76 | the root endpoint is the base URL; the index endpoint is base URL + index name; the mapping and document endpoints append `/_mapping` and `/_doc` to that |
| EsClient.UrlShape | lib/elasticSearchClient.js:35-76 | every endpoint URL starts with the base URL, and every non-root one continues with the index name |
| EsClient.EndpointsDistinct | lib/elasticSearchClient.js:33-79 | for a constructed client, the four endpoints are four different URLs |
| EsClient.RequestPromise | lib/elasticSearchClient.js:5-13 | rejects exactly on a truthy transport error or a status >= 400, with a truthy reason (the error itself, or `{body, status, headers}`); resolves exactly on a status < 400; the settled object carries the reply's status and body; a falsy error never settles |
| EsClient.Clean | lib/elasticSearchClient.js:70-73 | throws (a TypeError) exactly when the document is undefined/null and the mapping has a key; otherwise the cleaned doc has exactly the mapping's keys, each bound to the document's value when truthy and to null otherwise |
| EsClient.CleanDocument | lib/elasticSearchClient.js:70-73 | the key-by-key loop computes the same result as the projection, whatever order it visits the keys in |
| EsClient.CleanIdempotent | lib/elasticSearchClient.js:70-73 | cleaning a cleaned document gives it back unchanged |
| EsClient.CleanedValuesTruthyOrNull | lib/elasticSearchClient.js:72 | no cleaned value is falsy except null (0, '', false and undefined become null) |
| EsClient.LogCaught | lib/elasticSearchClient.js:80-82 | the catch block's `console.error(message, e.body \|\| e)` succeeds exactly when the caught value is not undefined/null, and then writes the given message to the console |
| EsClient.CatchAndLog | lib/elasticSearchClient.js:80-82 | a caught non-nullish value is logged once and the async function resolves to undefined; no request is added and no reply consumed |
| EsClient.InsertDocument | lib/elasticSearchClient.js:68-83 | never rejects and resolves only to undefined; POSTs the cleaned doc to `/_doc` exactly when cleaning succeeds; logs one line exactly when cleaning throws or the POST is rejected; stays pending exactly when the POST never settles |
| EsClient.SetMapping | lib/elasticSearchClient.js:51-66 | PUTs `{mappings: {properties}}` to the index URL; never rejects; pending exactly when no reply settles it; uses exactly one reply; logs exactly one "error while mappings initializing" line when the PUT is rejected and none otherwise; a settled call resolves to undefined |
| EsClient.ReadProperties | lib/elasticSearchClient.js:35-36 | reading `body[indexName].mappings.properties` throws exactly when one of the four receivers (the reply, its body, the index entry, its `mappings`) is undefined/null, and then throws the TypeError for the first such receiver; otherwise it gives the `properties` field |
| EsClient.GetMapping | lib/elasticSearchClient.js:33-44 | never rejects, however the 404 → setMapping → re-fetch recursion goes; the first request is always the GET of `/_mapping`; it consumes replies and never invents any; every line it logs is the "error while fetching mapping" or the "error while mappings initializing" message |
| EsClient.GetMapping404Retries | lib/elasticSearchClient.js:38-42 | for any rejected first fetch: after a 404 whose setMapping settles, the requests continue with the PUT of the mapping and then a new GET; any other rejection logs one "error while fetching mapping" line, sends nothing more and resolves to undefined |
| EsClient.GetMappingFound | lib/elasticSearchClient.js:35-36 | a first fetch that resolves with readable properties resolves with exactly those, sends one request and logs nothing; this includes a `mappings` object without `properties`, which resolves to undefined without a log line |
| EsClient.GetMapping404Result | lib/elasticSearchClient.js:38-41 | after a 404 and a settled setMapping, getMapping's result is that of a fresh getMapping on the remaining replies; its requests are the GET and the PUT followed by the fresh call's, and its log is setMapping's followed by the fresh call's |
| EsClient.GetMappingUnreadable | lib/elasticSearchClient.js:35-43 | a first fetch that resolves but whose reply, reply body, `[indexName]` entry or that entry's `mappings` is undefined/null is caught: one "error while fetching mapping" line, one request, and an undefined result |
| EsClient.HealthCheck | lib/elasticSearchClient.js:46-49 | GETs the base URL; rejects exactly when requestPromise rejects, with the same reason; resolves exactly when requestPromise resolves, with the reply's body; logs nothing |
| Tracking.KeyOfInjective | lib/tracker.js:28-38 | distinct getter slots fill distinct document keys |
| Tracking.SlotOrderComplete | lib/tracker.js:28-38 | every slot is called by the document literal and fills one of the ten base keys |
| Tracking.NormalizeStatus | lib/tracker.js:14 | the result is never 304; a status changes only when it is 304, and then it becomes 200 |
| Tracking.NormalizeStatusIdempotent | lib/tracker.js:14 | normalizing twice is normalizing once |
| Tracking.Merge | lib/tracker.js:9-21 | an overridden slot takes the caller's getter; every other slot keeps the one it had |
| Tracking.MergeNothing | lib/tracker.js:20 | spreading no overrides leaves the default table as it is |
| Tracking.OverrideOneSlot | lib/tracker.js:20 | overriding one slot changes that slot and no other |
| Tracking.ExtraFields | lib/tracker.js:39 | with no `getExtraFields`, nothing is added; otherwise it throws exactly when the producer throws (with its exception), and adds what spreading its result contributes |
| Tracking.EvalSlots | lib/tracker.js:28-38 | succeeds iff every getter of the list succeeds; keys are exactly the slots' keys, each bound to its getter's value; a throw is the exception of a getter all of whose predecessors succeeded |
| Tracking.BaseFields | lib/tracker.js:28-38 | the ten base fields: succeeds iff all ten getters succeed; keys are exactly the ten base keys, each slot's key bound to its getter's value; a throw comes from the first throwing getter in literal order |
| Tracking.BuildDoc | lib/tracker.js:28-40 | succeeds iff all getters and the extra-fields producer succeed; keys are the base keys plus the extra keys; extra fields win a clash; unclashed slots keep their getter's value; without a producer exactly the base keys; a throw is some getter's exception or the producer's |
| Tracking.NewTracker | lib/tracker.js:6-25 | the tracker starts active; logs to the supplied logger or `console.error`; its table is the defaults with the overrides spread over them; its client is built from `elasticSearchOptions` |
| Tracking.GenerateTrackingDoc | lib/tracker.js:25-47 | a supplied generator is used as is, with no log; the default generator logs nothing iff assembly succeeds, and then returns the assembled object (which has every base key); else it returns undefined and logs exactly one "cannot generate tracking doc" line to the tracker's logger, carrying the thrown value |
| Tracking.DefaultGettersSucceed | lib/tracker.js:10-19 | the ten default getters all succeed exactly when the request, its headers and the response are neither undefined nor null |
| Tracking.DefaultDocument | lib/tracker.js:10-38 | without overrides assembly succeeds exactly under those conditions, and the document holds 'anonymous', the headers' ip and user agent, the normalized status, clock minus start time, the clock, and url, method, error and body copied from the request |
| Tracking.ProcessingTimeIsElapsed | lib/tracker.js:15-34 | for any table whose processing-time getter is the default one (every merge that does not override it), when the getters succeed and no extra field hides the key, `processingTime` is the clock minus the start time, and is non-negative when the clock has not gone back |
| Tracking.OverrideOneGetter | lib/tracker.js:9-38 | overriding one getter (one that does not throw) whose key the extra fields do not cover changes the assembled document in that key only, which takes the new getter's value; extra fields are kept |
| Tracking.OverrideKeepsKey | lib/tracker.js:9-38 | with only one slot's getter replaced, every other key of the assembled document, extra field or base field, keeps its value |
| Tracking.DefaultMappingCoversBaseKeys | lib/elasticSearchClient.js:19-30 | the default mapping has exactly the ten base keys of a tracking document |
| Tracking.CleanGeneratedDocument | lib/elasticSearchClient.js:70-73 | under the default mapping, an assembled document cleans without throwing to exactly the base keys, its truthy values kept and its falsy ones null; extra fields are dropped |
| Middleware.Init | lib/index.js:10-11 | a new middleware is active, with no pending listeners, no `next()` calls, no inserted documents and no log |
| Middleware.Fire | lib/index.js:21-25 | one document per pending listener, in registration order, each generated from that listener's captured start time |
| Middleware.Settle | lib/index.js:12-18 | tracking is switched off exactly when the health check rejects, because getMapping never rejects; a rejection appends exactly one "track-requests is disabled" entry carrying the rejection reason; a pending check logs nothing, a resolved one appends getMapping's log, and neither appends the disabled message; nothing else about the tracker, listeners, `next()` calls or insertions changes |
| Middleware.Step | lib/index.js:19-28 | a step disables tracking exactly when it is a rejected health check, and never re-enables it; only an entry calls `next()`, once; documents are inserted only on a finish while active; inserted documents are only appended |
| Middleware.DisabledIsFinal | lib/index.js:16-24 | once disabled, a middleware stays disabled and inserts nothing, whatever events follow |
| Middleware.ActiveUntilHealthCheckFails | lib/index.js:12-18 | after any trace, tracking is on iff it was on before and no health check in the trace was rejected (both directions); the client never changes |
| Middleware.StartsAndStaysActive | lib/index.js:11-18 | a fresh middleware that sees no rejected health check keeps tracking |
| Middleware.NextOncePerRequest | lib/index.js:27 | the number of `next()` calls is the number of requests that entered, whether tracking is on or off |
| Middleware.FinishWhileInactive | lib/index.js:22 | while disabled, a finish builds, inserts and logs nothing |
| Middleware.FinishWhileActive | lib/index.js:21-25 | while active, the finish of a response with one listener inserts exactly one document, generated from the listener's start time, and removes the listener |
| Middleware.EnterThenFinish | lib/index.js:19-28 | a request that enters an active middleware and finishes yields one inserted document built from the entry time, one `next()` call, and no leftover listener |
| Middleware.FinishRunsOnce | lib/index.js:21 | a second finish of the same response changes nothing (`res.once`) |
| Middleware.UndefinedDocumentReachesInsert | lib/index.js:23-24 | when default assembly throws and the client's mapping has at least one key (`indexProperties != map[]`), undefined is inserted with one log line; insertDocument then sends no request, logs once and still resolves to undefined |
| Examples.DefaultGetExample | test/trackerTests.js:16-36 | with default getters, the GET example gives url, method, 'anonymous', the x-real-ip header, status 200, processing time 0, the start time, the user agent, and undefined error and body |
| Examples.CustomGettersExample | test/trackerTests.js:83-129 | with the test's custom getters and extra fields, the GET example gives user 'balbaz', ip from `req.ip`, undefined error, body, params and query, and `hello: 'hello balbaz'` |

## Left out

- Network I/O, Express and the `request` library are not modelled. Replies are an input sequence, and the middleware's events are given in some order.
- `Date.now()` is a parameter. The source reads the clock separately for `processingTime` and `createdAt`, so the two values may differ by a few milliseconds there; the model uses one reading.
- `console.error` and the supplied logger are not run. Their calls are recorded as `LogEntry` values.
- `opts.dbClient` (an injected client) is not modelled; the tracker always builds its own client.
- The logger is modelled only as supplied or absent; a supplied but falsy `opts.logger` would also fall back to `console.error`.
- Prototype and inherited properties are not modelled, and neither are the built-in properties of primitives (such as `length`); reading any of them gives undefined. String index reads are not modelled either: `'ab'['0']` is `'a'` in JavaScript but undefined here, so a string document cleaned under a mapping key such as `"0"` gives null where the source gives the character. Spreading a string makes one key per Unicode scalar value, whereas JavaScript makes one per UTF-16 code unit, so `{...'😀'}` has one key here and two in JavaScript; this matters only when `getExtraFields` returns a string.
- Numbers are integers. A fraction agrees with a non-zero integer on truthiness, which is the only test the library makes on a value (lib/elasticSearchClient.js:72). NaN and -0, which are falsy and would be cleaned to null, are not representable.
- Overrides are always functions. An override set to a non-function, or to `undefined`, would throw when called; this is not modelled.
- Every getter takes the same `Call` record. The source gives the processing-time getter only the start time and the others only `(req, res)`; defaults read only what the source passes them.
- Tracking.GenerateTrackingDoc: does not model a supplied `generateTrackingDoc` that throws, because a replacement generator returns a value in the model.
- EsClient.GetMapping: the 404 → create → re-fetch recursion is bounded by the reply sequence. An index that keeps answering 404 recurses forever in the source; here it ends Pending once the replies run out.
- The callback of `request` for a falsy error with no response is modelled as a promise that never settles. The thrown error escapes into the HTTP library.
- The TypeError of a read from undefined/null carries "Cannot read properties of undefined" (or null) without the property name that V8 appends, such as "(reading 'url')". Only the logged detail is affected. This is also why CleanDocument's result does not depend on the order of the mapping's keys when it throws.
- Middleware.Run accepts traces with several HealthCheckDone events, but the source runs the health check once, when the middleware is created. Such traces cannot happen; the model only admits more traces than the source produces.
- The middleware state's log does not hold the lines insertDocument logs: a step records the document handed to insertDocument, and EsClient.InsertDocument states separately what that call sends and logs.
- The ordering of asynchronous work is not modelled. Only the states before and after each event are.
- Ignore rules and body policies are not modelled, because the library has none.
- test/esClientTests.js checks `esClient.esUrl` and expects `insertDocument` to resolve the cleaned document. The code has `elasticUrl` and resolves undefined, and the model follows the code.

=== FILE: EsClient.dfy ===
/** The Elasticsearch client of lib/elasticSearchClient.js.  The HTTP layer is
    an oracle: every request the client issues is answered by the next entry
    of a reply sequence, and the model records the requests it issues and the
    lines it writes to `console.error`. */
module EsClient {
  import opened Js

  const DefaultUrl: string := "http://127.0.0.1:9200/"
  const DefaultIndexName: string := "tracking"

  function FieldType(t: string): Value {
    Obj(map["type" := Str(t)])
  }

  /** The mapping used when none is supplied: one entry per field of a
      tracking document. */
  const DefaultIndexProperties: map<string, Value> :=
    map["url" := FieldType("keyword"),
        "method" := FieldType("keyword"),
        "user" := FieldType("keyword"),
        "ip" := FieldType("ip"),
        "statusCode" := FieldType("short"),
        "processingTime" := FieldType("integer"),
        "createdAt" := FieldType("date"),
        "error" := FieldType("text"),
        "userAgent" := FieldType("text"),
        "body" := FieldType("nested")]

  /** The constructor's `opts`; an absent option is `None`. */
  datatype ClientOptions = ClientOptions(
    elasticSearchUrl: Option<string>,
    indexName: Option<string>,
    indexProperties: Option<map<string, Value>>)

  const NoOptions: ClientOptions := ClientOptions(None, None, None)

  datatype Client = Client(elasticUrl: string, indexName: string, indexProperties: map<string, Value>)

  /** `opt || default` for a string option: an absent or empty string falls
      back to the default. */
  function OrDefault(opt: Option<string>, default: string): (r: string)
    ensures opt.Some? && opt.value != "" ==> r == opt.value
    ensures opt.None? || opt.value == "" ==> r == default
  {
    if opt.Some? && opt.value != "" then opt.value else default
  }

  /** The constructor.  A supplied mapping, even an empty one, replaces the
      default mapping as a whole (an object is always truthy). */
  function NewClient(opts: ClientOptions): (c: Client)
    ensures opts.elasticSearchUrl.Some? && opts.elasticSearchUrl.value != "" ==> c.elasticUrl == opts.elasticSearchUrl.value
    ensures opts.elasticSearchUrl.None? || opts.elasticSearchUrl.value == "" ==> c.elasticUrl == DefaultUrl
    ensures opts.indexName.Some? && opts.indexName.value != "" ==> c.indexName == opts.indexName.value
    ensures opts.indexName.None? || opts.indexName.value == "" ==> c.indexName == DefaultIndexName
    ensures opts.indexProperties.Some? ==> c.indexProperties == opts.indexProperties.value
    ensures opts.indexProperties.None? ==> c.indexProperties == DefaultIndexProperties
    ensures c.elasticUrl != "" && c.indexName != ""
  {
    Client(OrDefault(opts.elasticSearchUrl, DefaultUrl),
           OrDefault(opts.indexName, DefaultIndexName),
           opts.indexProperties.GetOr(DefaultIndexProperties))
  }

  // ---------------------------------------------------------------- endpoints

  /** The four URLs the client talks to: the cluster root (health check), the
      index (mapping creation), its mapping, and its document endpoint. */
  datatype Endpoint = Root | Index | Mapping | Docs

  function Suffix(e: Endpoint): string {
    match e
    case Root => ""
    case Index => ""
    case Mapping => "/_mapping"
    case Docs => "/_doc"
  }

  /** The URL of an endpoint, built by string concatenation. */
  function Url(c: Client, e: Endpoint): (u: string)
    ensures e == Root ==> u == c.elasticUrl
    ensures e == Index ==> u == c.elasticUrl + c.indexName
    ensures e == Mapping ==> u == c.elasticUrl + c.indexName + "/_mapping"
    ensures e == Docs ==> u == c.elasticUrl + c.indexName + "/_doc"
  {
    if e == Root then c.elasticUrl else c.elasticUrl + c.indexName + Suffix(e)
  }

  /** Every URL starts with the base URL, and every URL but the root's
      continues with the index name. */
  lemma UrlShape(c: Client, e: Endpoint)
    ensures |c.elasticUrl| <= |Url(c, e)| && Url(c, e)[..|c.elasticUrl|] == c.elasticUrl
    ensures e != Root ==> |c.elasticUrl + c.indexName| <= |Url(c, e)|
                          && Url(c, e)[..|c.elasticUrl + c.indexName|] == c.elasticUrl + c.indexName
  {
    if e != Root {
      var p := c.elasticUrl + c.indexName;
      assert Url(c, e) == p + Suffix(e);
      assert (p + Suffix(e))[..|p|] == p;
      assert p[..|c.elasticUrl|] == c.elasticUrl;
    }
  }

  /** A constructed client never sends two different kinds of request to the
      same URL, because its index name is never empty. */
  lemma EndpointsDistinct(opts: ClientOptions, e1: Endpoint, e2: Endpoint)
    requires e1 != e2
    ensures Url(NewClient(opts), e1) != Url(NewClient(opts), e2)
  {
    var c := NewClient(opts);
    var p := c.elasticUrl + c.indexName;
    if e1 == Root || e2 == Root {
      assert |Url(c, e1)| != |Url(c, e2)|;
    } else if e1 == Index || e2 == Index {
      assert |Url(c, e1)| != |Url(c, e2)|;
    } else {
      var u1, u2 := Url(c, e1), Url(c, e2);
      assert u1 == p + Suffix(e1) && u2 == p + Suffix(e2);
      assert u1[|p| + 2] != u2[|p| + 2];
    }
  }

  // ---------------------------------------------------------- requestPromise

  /** What the `request` library hands its callback: an error, or a response
      with its status code, body and headers. */
  datatype Transport =
    | NetworkError(err: Value)
    | Response(statusCode: int, body: Value, headers: Value)

  /** The state of a promise.  `Pending` also stands for "not settled within
      the replies the model was given". */
  datatype Promise = Pending | Resolved(value: Value) | Rejected(reason: Value)

  /** The `{body, status, headers}` object requestPromise settles with. */
  function ReplyObject(body: Value, status: int, headers: Value): Value {
    Obj(map["body" := body, "status" := Num(status), "headers" := headers])
  }

  /** requestPromise: a truthy transport error rejects with that error, a
      status of 400 or more rejects with the reply object, anything else
      resolves with it.  A falsy error comes with no response, so the
      callback throws reading `res.statusCode` and the promise never
      settles. */
  function RequestPromise(t: Transport): (p: Promise)
    ensures p.Rejected? <==> (t.NetworkError? && Truthy(t.err)) || (t.Response? && t.statusCode >= 400)
    ensures p.Resolved? <==> t.Response? && t.statusCode < 400
    ensures p.Rejected? ==> Truthy(p.reason)
    ensures t.NetworkError? && p.Rejected? ==> p.reason == t.err
    ensures t.Response? ==> (Field(PromiseValue(p), "status") == Num(t.statusCode)
                             && Field(PromiseValue(p), "body") == t.body)
  {
    match t
    case NetworkError(err) => if Truthy(err) then Rejected(err) else Pending
    case Response(status, body, headers) =>
      if status >= 400 then Rejected(ReplyObject(body, status, headers))
      else Resolved(ReplyObject(body, status, headers))
  }

  /** The value a settled promise carries, whichever way it settled. */
  function PromiseValue(p: Promise): Value {
    match p
    case Pending => Undefined
    case Resolved(v) => v
    case Rejected(e) => e
  }

  // ----------------------------------------------------------- cleaned document

  /** The value one mapping key takes in the cleaned document:
      `document[key] || null`. */
  function CleanValue(doc: Value, key: string): Value {
    Or(Field(doc, key), Null)
  }

  /** The projection insertDocument sends: exactly the mapping's keys, each
      bound to the document's value when truthy and to null otherwise.
      Reading a key of an undefined or null document throws, so the
      projection throws exactly when the document is nullish and the
      mapping has at least one key. */
  function Clean(props: map<string, Value>, doc: Value): (r: Completion<map<string, Value>>)
    ensures r.Throw? <==> Nullish(doc) && props != map[]
    ensures r.Throw? ==> r.exc == TypeError(doc)
    ensures r.Normal? ==> r.value.Keys == props.Keys
    ensures r.Normal? ==> forall k | k in r.value ::
              (Truthy(Field(doc, k)) ==> r.value[k] == Field(doc, k)) && (!Truthy(Field(doc, k)) ==> r.value[k] == Null)
  {
    if Nullish(doc) && props != map[] then Throw(TypeError(doc))
    else Normal(map k | k in props :: CleanValue(doc, k))
  }

  /** The forEach loop of insertDocument, one mapping key at a time (in an
      unspecified order, which the result does not depend on). */
  method CleanDocument(props: map<string, Value>, doc: Value) returns (r: Completion<map<string, Value>>)
    ensures r == Clean(props, doc)
  {
    var cleaned: map<string, Value> := map[];
    var todo := props.Keys;
    while todo != {}
      invariant todo <= props.Keys
      invariant cleaned.Keys == props.Keys - todo
      invariant forall k | k in cleaned :: cleaned[k] == CleanValue(doc, k)
      invariant todo != props.Keys ==> !Nullish(doc)
      decreases todo
    {
      var k :| k in todo;
      var v := Get(doc, k);
      if v.Throw? {
        return Throw(v.exc);
      }
      cleaned := cleaned[k := Or(v.value, Null)];
      todo := todo - {k};
    }
    assert cleaned == map k | k in props :: CleanValue(doc, k);
    r := Normal(cleaned);
  }

  /** Cleaning is idempotent: a cleaned document cleans to itself. */
  lemma CleanIdempotent(props: map<string, Value>, doc: Value)
    requires Clean(props, doc).Normal?
    ensures Clean(props, Obj(Clean(props, doc).value)) == Clean(props, doc)
  {
    var once := Clean(props, doc).value;
    var twice := Clean(props, Obj(once)).value;
    forall k | k in props
      ensures twice[k] == once[k]
    {
      assert Field(Obj(once), k) == once[k];
    }
    assert twice.Keys == once.Keys;
    assert twice == once;
  }

  /** No cleaned value is falsy unless it is null: 0, '', false and undefined
      all become null. */
  lemma CleanedValuesTruthyOrNull(props: map<string, Value>, doc: Value, k: string)
    requires Clean(props, doc).Normal? && k in props
    ensures var v := Clean(props, doc).value[k]; v == Null || Truthy(v)
  {
  }

  // ---------------------------------------------------------------- requests

  datatype HttpRequest = HttpRequest(verb: string, url: string, body: Value)

  /** The requests, log lines and outcome of one client operation, and the
      replies it left unused. */
  datatype Run = Run(outcome: Promise, requests: seq<HttpRequest>, log: seq<LogEntry>, rest: seq<Transport>)

  const InsertFailedMessage: string := "Track-Requests: error while inserting a document :"
  const SetMappingFailedMessage: string := "Track-Requests: error while mappings initializing :"
  const GetMappingFailedMessage: string := "Track-Requests: error while fetching mapping:"

  /** The catch blocks' `console.error(message, e.body || e)`; reading
      `e.body` throws if `e` is nullish. */
  function LogCaught(message: string, e: Value): (r: Completion<LogEntry>)
    ensures r.Normal? <==> !Nullish(e)
    ensures r.Normal? ==> r.value.sink == ConsoleError && r.value.message == message
  {
    var b :- Get(e, "body");
    Normal(LogEntry(ConsoleError, message, Or(b, e)))
  }

  /** A catch block that logs and lets the async function resolve to
      undefined; if the logging itself throws, the function rejects. */
  function CatchAndLog(message: string, e: Value, requests: seq<HttpRequest>, rest: seq<Transport>): (r: Run)
    ensures !Nullish(e) ==> r.outcome == Resolved(Undefined) && |r.log| == 1 && r.log[0].message == message
    ensures r.requests == requests && r.rest == rest
    ensures forall i | 0 <= i < |r.log| :: r.log[i].message == message
  {
    match LogCaught(message, e)
    case Normal(entry) => Run(Resolved(Undefined), requests, [entry], rest)
    case Throw(x) => Run(Rejected(x), requests, [], rest)
  }

  function InsertRequest(c: Client, cleaned: map<string, Value>): HttpRequest {
    HttpRequest("POST", Url(c, Docs), Obj(cleaned))
  }

  /** insertDocument: clean, POST to the document endpoint, and catch every
      failure.  A nullish document makes the cleaning throw, so no request
      is sent. */
  function InsertDocument(c: Client, doc: Value, reply: Transport): (r: Run)
    ensures !r.outcome.Rejected?
    ensures r.outcome.Resolved? ==> r.outcome.value == Undefined
    ensures r.requests == (if Clean(c.indexProperties, doc).Normal?
                           then [InsertRequest(c, Clean(c.indexProperties, doc).value)] else [])
    ensures |r.log| == (if Clean(c.indexProperties, doc).Throw? || RequestPromise(reply).Rejected? then 1 else 0)
    ensures forall i | 0 <= i < |r.log| :: r.log[i].message == InsertFailedMessage
    ensures r.outcome.Pending? <==> Clean(c.indexProperties, doc).Normal? && RequestPromise(reply).Pending?
  {
    match Clean(c.indexProperties, doc)
    case Throw(e) => CatchAndLog(InsertFailedMessage, e, [], [reply])
    case Normal(cleaned) =>
      var sent := [InsertRequest(c, cleaned)];
      match RequestPromise(reply)
      case Pending => Run(Pending, sent, [], [])
      case Resolved(_) => Run(Resolved(Undefined), sent, [], [])
      case Rejected(e) => CatchAndLog(InsertFailedMessage, e, sent, [])
  }

  function SetMappingRequest(c: Client): HttpRequest {
    HttpRequest("PUT", Url(c, Index),
                Obj(map["mappings" := Obj(map["properties" := Obj(c.indexProperties)])]))
  }

  /** setMapping: PUT the mapping to the index URL, catching every failure.
      It uses at most one reply. */
  function SetMapping(c: Client, replies: seq<Transport>): (r: Run)
    ensures !r.outcome.Rejected?
    ensures r.requests == [SetMappingRequest(c)]
    ensures r.outcome.Pending? <==> replies == [] || RequestPromise(replies[0]).Pending?
    ensures replies != [] ==> r.rest == replies[1..]
    ensures |r.rest| <= |replies|
    ensures forall i | 0 <= i < |r.log| :: r.log[i].message == SetMappingFailedMessage
    ensures |r.log| == (if replies != [] && RequestPromise(replies[0]).Rejected? then 1 else 0)
    ensures r.outcome.Resolved? ==> r.outcome.value == Undefined
  {
    var sent := [SetMappingRequest(c)];
    if replies == [] then Run(Pending, sent, [], [])
    else
      match RequestPromise(replies[0])
      case Pending => Run(Pending, sent, [], replies[1..])
      case Resolved(_) => Run(Resolved(Undefined), sent, [], replies[1..])
      case Rejected(e) => CatchAndLog(SetMappingFailedMessage, e, sent, replies[1..])
  }

  function GetMappingRequest(c: Client): HttpRequest {
    HttpRequest("GET", Url(c, Mapping), Undefined)
  }

  /** `mapping[indexName].mappings.properties` read from the resolved reply's
      body; every step may throw. */
  function ReadProperties(reply: Value, indexName: string): (r: Completion<Value>)
    ensures var mapping := Field(reply, "body");
            var index := Field(mapping, indexName);
            var mappings := Field(index, "mappings");
            && (r.Throw? <==> Nullish(reply) || Nullish(mapping) || Nullish(index) || Nullish(mappings))
            && (r.Normal? ==> r.value == Field(mappings, "properties"))
            && (r.Throw? ==> r.exc == TypeError(if Nullish(reply) then reply
                                               else if Nullish(mapping) then mapping
                                               else if Nullish(index) then index
                                               else mappings))
    ensures r.Throw? ==> r.exc.Obj?
  {
    var mapping :- Get(reply, "body");
    var index :- Get(mapping, indexName);
    var mappings :- Get(index, "mappings");
    Get(mappings, "properties")
  }

  /** Whether a caught value is a 404 (`e.status === 404`); reading `status`
      may itself throw. */
  function StatusIs404(e: Value): Completion<bool> {
    var status :- Get(e, "status");
    Normal(status == Num(404))
  }

  /** getMapping: fetch the mapping; on a 404 create it with setMapping and
      fetch again; on any other failure log and resolve to undefined. */
  function GetMapping(c: Client, replies: seq<Transport>): (r: Run)
    ensures !r.outcome.Rejected?
    ensures |r.requests| > 0 && r.requests[0] == GetMappingRequest(c)
    ensures |r.rest| <= |replies|
    ensures forall i | 0 <= i < |r.log| ::
              r.log[i].message == GetMappingFailedMessage || r.log[i].message == SetMappingFailedMessage
    decreases |replies|
  {
    var sent := [GetMappingRequest(c)];
    if replies == [] then Run(Pending, sent, [], [])
    else
      var rest := replies[1..];
      match RequestPromise(replies[0])
      case Pending => Run(Pending, sent, [], rest)
      case Resolved(v) =>
        (match ReadProperties(v, c.indexName)
         case Normal(props) => Run(Resolved(props), sent, [], rest)
         case Throw(e) => CatchAndLog(GetMappingFailedMessage, e, sent, rest))
      case Rejected(e) =>
        match StatusIs404(e)
        case Throw(x) => Run(Rejected(x), sent, [], rest)
        case Normal(false) => CatchAndLog(GetMappingFailedMessage, e, sent, rest)
        case Normal(true) =>
          var created := SetMapping(c, rest);
          if created.outcome.Pending? then Run(Pending, sent + created.requests, created.log, created.rest)
          else
            var again := GetMapping(c, created.rest);
            Run(again.outcome, sent + created.requests + again.requests, created.log + again.log, again.rest)
  }

  /** A 404 on the first fetch is followed by the mapping creation and a new
      fetch, in that order; any other rejection ends getMapping with one log
      line and an undefined result. */
  lemma GetMapping404Retries(c: Client, replies: seq<Transport>)
    requires |replies| >= 1 && RequestPromise(replies[0]).Rejected?
    ensures var e := RequestPromise(replies[0]).reason;
            var r := GetMapping(c, replies);
            ((|replies| >= 2 && Field(e, "status") == Num(404) && !RequestPromise(replies[1]).Pending?)
              ==> |r.requests| >= 3 && r.requests[1] == SetMappingRequest(c) && r.requests[2] == GetMappingRequest(c))
            && (Field(e, "status") != Num(404)
              ==> r.outcome == Resolved(Undefined) && r.requests == [GetMappingRequest(c)]
                  && |r.log| == 1 && r.log[0].message == GetMappingFailedMessage)
  {
    var e := RequestPromise(replies[0]).reason;
    assert !Nullish(e);
    if |replies| >= 2 && Field(e, "status") == Num(404) && !RequestPromise(replies[1]).Pending? {
      var created := SetMapping(c, replies[1..]);
      var again := GetMapping(c, created.rest);
      assert GetMapping(c, replies).requests == [GetMappingRequest(c)] + created.requests + again.requests;
    }
  }

  /** A mapping fetch that succeeds on the first reply resolves with the
      `properties` found under the index name and sends nothing else. */
  lemma GetMappingFound(c: Client, replies: seq<Transport>, props: Value)
    requires |replies| > 0 && RequestPromise(replies[0]).Resolved?
    requires ReadProperties(RequestPromise(replies[0]).value, c.indexName) == Normal(props)
    ensures GetMapping(c, replies).outcome == Resolved(props)
    ensures GetMapping(c, replies).requests == [GetMappingRequest(c)]
    ensures GetMapping(c, replies).log == []
  {
  }

  /** A 404 on the first fetch followed by a settled mapping creation ends
      exactly as a fresh getMapping on the replies after those two: same
      outcome, the two requests in front, and the creation's log first. */
  lemma GetMapping404Result(c: Client, replies: seq<Transport>)
    requires |replies| >= 2 && RequestPromise(replies[0]).Rejected?
    requires Field(RequestPromise(replies[0]).reason, "status") == Num(404)
    requires !RequestPromise(replies[1]).Pending?
    ensures GetMapping(c, replies).outcome == GetMapping(c, replies[2..]).outcome
    ensures GetMapping(c, replies).requests
            == [GetMappingRequest(c), SetMappingRequest(c)] + GetMapping(c, replies[2..]).requests
    ensures GetMapping(c, replies).log == SetMapping(c, replies[1..]).log + GetMapping(c, replies[2..]).log
  {
    assert SetMapping(c, replies[1..]).rest == replies[2..];
  }

  /** A first reply whose body lacks the index's mapping is caught: one log
      line, an undefined result, and no further request. */
  lemma GetMappingUnreadable(c: Client, replies: seq<Transport>)
    requires |replies| > 0 && RequestPromise(replies[0]).Resolved?
    requires ReadProperties(RequestPromise(replies[0]).value, c.indexName).Throw?
    ensures GetMapping(c, replies).outcome == Resolved(Undefined)
    ensures GetMapping(c, replies).requests == [GetMappingRequest(c)]
    ensures |GetMapping(c, replies).log| == 1 && GetMapping(c, replies).log[0].message == GetMappingFailedMessage
  {
  }

  /** healthCheck: GET the cluster root and resolve with the reply's body;
      failures are not caught here. */
  function HealthCheck(c: Client, reply: Transport): (r: Run)
    ensures r.requests == [HttpRequest("GET", Url(c, Root), Undefined)]
    ensures r.outcome.Rejected? <==> RequestPromise(reply).Rejected?
    ensures r.outcome.Resolved? <==> RequestPromise(reply).Resolved?
    ensures r.outcome.Rejected? ==> r.outcome == RequestPromise(reply)
    ensures r.outcome.Resolved? ==> reply.Response? && r.outcome.value == reply.body
    ensures r.log == []
  {
    var sent := [HttpRequest("GET", Url(c, Root), Undefined)];
    match RequestPromise(reply)
    case Resolved(v) => Run(Resolved(Field(v, "body")), sent, [], [])
    case other => Run(other, sent, [], [])
  }
}

=== FILE: Examples.dfy ===
/** The tracker scenarios of test/trackerTests.js, stated as lemmas about the
    model.  The clock reads the start time, so the processing time is 0. */
module Examples {
  import opened Js
  import opened Tracking
  import EsClient

  const TestClientOptions: EsClient.ClientOptions :=
    EsClient.ClientOptions(Some("http://127.0.0.1:9200/"), Some("test-tracking"), None)

  const Headers: Value := Obj(map["user-agent" := Str("scraper"), "x-real-ip" := Str("127.0.0.1")])

  const GetRequest: Value :=
    Obj(map["url" := Str("/test"), "method" := Str("GET"), "headers" := Headers])

  const Ok: Value := Obj(map["statusCode" := Num(200)])

  /** The document trackerTests expects for the GET request. */
  function ExpectedGet(start: int): map<string, Value> {
    map["url" := Str("/test"), "method" := Str("GET"), "user" := Str("anonymous"),
        "ip" := Str("127.0.0.1"), "statusCode" := Num(200), "processingTime" := Num(0),
        "createdAt" := Num(start), "error" := Undefined,
        "userAgent" := Str("scraper"), "body" := Undefined]
  }

  /** A tracker with default getters documents a GET request: the error and
      body it does not have are undefined. */
  lemma DefaultGetExample(start: int)
    ensures GenerateTrackingDoc(NewTracker(NoTrackerOptions.(elasticSearchOptions := TestClientOptions)),
                                Call(GetRequest, Ok, start, start))
            == Generated(Obj(ExpectedGet(start)), [])
  {
    MergeNothing(DefaultGetters);
    var c := Call(GetRequest, Ok, start, start);
    DefaultDocument(c);
    assert Field(GetRequest, "headers") == Headers;
    GetDocument(BuildDoc(DefaultGetters, None, c).value, start);
  }

  lemma GetDocument(d: map<string, Value>, start: int)
    requires IsDefaultDocument(d, Call(GetRequest, Ok, start, start))
    ensures d == ExpectedGet(start)
  {
    var e := ExpectedGet(start);
    assert Field(GetRequest, "headers") == Headers;
    assert Field(GetRequest, "url") == Str("/test") && Field(GetRequest, "method") == Str("GET");
    assert Field(GetRequest, "error") == Undefined && Field(GetRequest, "body") == Undefined;
    assert Field(Headers, "x-real-ip") == Str("127.0.0.1") && Field(Headers, "user-agent") == Str("scraper");
    assert Field(Ok, "statusCode") == Num(200);
    forall s: Slot ensures d[KeyOf(s)] == e[KeyOf(s)] {
      match s
      case Url =>
      case Method =>
      case User =>
      case Ip =>
      case StatusCode =>
      case ProcessingTime =>
      case CreatedAt =>
      case ErrorMessage =>
      case UserAgent =>
      case Body =>
    }
    SameDocument(d, e);
  }

  /** Two documents over the base keys are equal when they agree slot by
      slot. */
  lemma SameDocument(d: map<string, Value>, e: map<string, Value>)
    requires d.Keys == BaseKeys && e.Keys == BaseKeys
    requires forall s: Slot :: d[KeyOf(s)] == e[KeyOf(s)]
    ensures d == e
  {
    forall k | k in d ensures d[k] == e[k] {
      assert d[KeyOf(SlotNamed(k))] == e[KeyOf(SlotNamed(k))];
    }
  }

  /** `req.user && req.user.id || 'sankou7'` on a readable request. */
  function UserIdOf(req: Value): Value {
    var user := Field(req, "user");
    Or(if Truthy(user) then Field(user, "id") else user, Str("sankou7"))
  }

  function CustomUser(c: Call): Completion<Value> {
    if Nullish(c.req) then Throw(TypeError(c.req)) else Normal(UserIdOf(c.req))
  }
  function CustomIp(c: Call): Completion<Value> { Get(c.req, "ip") }
  function CustomErrorMessage(c: Call): Completion<Value> { Get(c.res, "error") }

  /** The extra fields: route params, query, and a greeting built from the
      user id. */
  function CustomExtras(c: Call): Completion<Value> {
    if Nullish(c.req) then Throw(TypeError(c.req))
    else Normal(Obj(map["params" := Field(c.req, "params"), "query" := Field(c.req, "query"),
                        "hello" := Str("hello " + ToJsString(UserIdOf(c.req)))]))
  }

  const CustomOptions: TrackerOptions :=
    TrackerOptions(map[User := CustomUser, Ip := CustomIp, ErrorMessage := CustomErrorMessage],
                   Some(CustomExtras), None, false, TestClientOptions)

  const UserRequest: Value :=
    Obj(map["url" := Str("/test"), "method" := Str("GET"), "ip" := Str("8.8.8.8"),
            "user" := Obj(map["id" := Str("balbaz")]), "headers" := Headers])

  /** The base fields trackerTests expects from the custom getters. */
  function CustomBase(start: int): map<string, Value> {
    map["url" := Str("/test"), "method" := Str("GET"), "user" := Str("balbaz"),
        "ip" := Str("8.8.8.8"), "statusCode" := Num(200), "processingTime" := Num(0),
        "createdAt" := Num(start), "error" := Undefined,
        "userAgent" := Str("scraper"), "body" := Undefined]
  }

  /** The extra fields it expects: no params or query, and the greeting. */
  const Greeting: map<string, Value> :=
    map["params" := Undefined, "query" := Undefined, "hello" := Str("hello balbaz")]

  /** Custom getters replace their slots and the extra fields are spread
      after the base fields; the getters the caller left alone keep their
      default behaviour. */
  lemma CustomGettersExample(start: int)
    ensures GenerateTrackingDoc(NewTracker(CustomOptions), Call(UserRequest, Ok, start, start))
            == Generated(Obj(CustomBase(start) + Greeting), [])
  {
    var t := NewTracker(CustomOptions);
    var c := Call(UserRequest, Ok, start, start);
    CustomSlots(start);
    CustomExtraFields(start);
    assert BaseSucceeds(t.getters, c);
    var d := BuildDoc(t.getters, Some(CustomExtras), c).value;
    CustomOverlay(d, start);
  }

  /** The getter table the custom options produce. */
  function CustomEntry(s: Slot): Getter {
    if s == User then CustomUser
    else if s == Ip then CustomIp
    else if s == ErrorMessage then CustomErrorMessage
    else Lookup(DefaultGetters, s)
  }

  lemma CustomSlots(start: int)
    ensures forall s: Slot :: Lookup(NewTracker(CustomOptions).getters, s)(Call(UserRequest, Ok, start, start))
                              == Normal(CustomBase(start)[KeyOf(s)])
  {
    var g := NewTracker(CustomOptions).getters;
    assert forall s: Slot :: Lookup(g, s) == CustomEntry(s);
    CustomEntries(start);
  }

  lemma CustomEntries(start: int)
    ensures forall s: Slot :: CustomEntry(s)(Call(UserRequest, Ok, start, start)) == Normal(CustomBase(start)[KeyOf(s)])
  {
    var c := Call(UserRequest, Ok, start, start);
    var e := CustomBase(start);
    assert Field(UserRequest, "headers") == Headers;
    forall s: Slot ensures CustomEntry(s)(c) == Normal(e[KeyOf(s)]) {
      match s
      case Url =>
        assert CustomEntry(s)(c) == Normal(e[KeyOf(s)]);
      case Method =>
        assert CustomEntry(s)(c) == Normal(e[KeyOf(s)]);
      case User =>
        assert UserIdOf(UserRequest) == Str("balbaz");
        assert CustomEntry(s)(c) == Normal(e[KeyOf(s)]);
      case Ip =>
        assert CustomEntry(s)(c) == Normal(e[KeyOf(s)]);
      case StatusCode =>
        assert CustomEntry(s)(c) == Normal(e[KeyOf(s)]);
      case ProcessingTime =>
        assert CustomEntry(s)(c) == Normal(e[KeyOf(s)]);
      case CreatedAt =>
        assert CustomEntry(s)(c) == Normal(e[KeyOf(s)]);
      case ErrorMessage =>
        assert CustomEntry(s)(c) == Normal(e[KeyOf(s)]);
      case UserAgent =>
        assert CustomEntry(s)(c) == Normal(e[KeyOf(s)]);
      case Body =>
        assert CustomEntry(s)(c) == Normal(e[KeyOf(s)]);
    }
  }

  lemma CustomExtraFields(start: int)
    ensures ExtraFields(NewTracker(CustomOptions).extraFields, Call(UserRequest, Ok, start, start)) == Normal(Greeting)
  {
    assert NewTracker(CustomOptions).extraFields == Some(CustomExtras);
    CustomExtrasValue(start);
  }

  lemma CustomExtrasValue(start: int)
    ensures CustomExtras(Call(UserRequest, Ok, start, start)) == Normal(Obj(Greeting))
  {
    assert UserIdOf(UserRequest) == Str("balbaz");
    assert "hello " + ToJsString(Str("balbaz")) == "hello balbaz";
    assert Field(UserRequest, "params") == Undefined && Field(UserRequest, "query") == Undefined;
  }

  lemma CustomOverlay(d: map<string, Value>, start: int)
    requires d.Keys == BaseKeys + Greeting.Keys
    requires forall k | k in Greeting :: d[k] == Greeting[k]
    requires forall s: Slot | KeyOf(s) !in Greeting :: KeyOf(s) in d && d[KeyOf(s)] == CustomBase(start)[KeyOf(s)]
    ensures d == CustomBase(start) + Greeting
  {
    var e := CustomBase(start) + Greeting;
    forall k | k in d ensures k in e && d[k] == e[k] {
      if k !in Greeting {
        assert d[KeyOf(SlotNamed(k))] == CustomBase(start)[KeyOf(SlotNamed(k))];
      }
    }
  }
}

=== FILE: Js.dfy ===
/** The slice of JavaScript semantics the request tracker relies on: values,
    truthiness, property reads that may throw, `||`, object spread, and the
    entries written to a logger.  Numbers are integers here: a fraction agrees
    with a non-zero integer on truthiness, the only test the library makes on
    a value, and NaN and -0 are not represented. */
module Js {

  /** A JavaScript value as the tracker observes it.  An object is the map of
      its own enumerable properties. */
  datatype Value =
    | Undefined
    | Null
    | Bool(b: bool)
    | Num(n: int)
    | Str(s: string)
    | Obj(fields: map<string, Value>)

  datatype Option<+T> = None | Some(value: T) {
    function GetOr(default: T): T {
      match this
      case Some(v) => v
      case None => default
    }
  }

  /** The completion of an evaluation: a normal value or a thrown one.
      Usable with `:-`, so that the first throw ends the evaluation. */
  datatype Completion<+T> = Normal(value: T) | Throw(exc: Value) {
    predicate IsFailure() {
      Throw?
    }

    function PropagateFailure<U>(): Completion<U>
      requires Throw?
    {
      Throw(exc)
    }

    function Extract(): T
      requires Normal?
    {
      value
    }
  }

  /** `if (v)`: undefined, null, false, 0 and '' are the falsy values. */
  predicate Truthy(v: Value) {
    match v
    case Undefined => false
    case Null => false
    case Bool(b) => b
    case Num(n) => n != 0
    case Str(s) => s != ""
    case Obj(_) => true
  }

  predicate Nullish(v: Value) {
    v.Undefined? || v.Null?
  }

  /** The TypeError a property read on undefined or null throws.  The
      message names the receiver only, not the property. */
  function TypeError(receiver: Value): (e: Value)
    ensures e.Obj? && Truthy(e)
  {
    Obj(map["name" := Str("TypeError"),
            "message" := Str(if receiver.Null? then "Cannot read properties of null"
                             else "Cannot read properties of undefined")])
  }

  /** The value a read of `key` yields on a receiver that is not undefined or
      null: the own property of an object, undefined otherwise. */
  function Field(v: Value, key: string): Value {
    if v.Obj? && key in v.fields then v.fields[key] else Undefined
  }

  /** The property read `v[key]`, which throws a TypeError exactly when the
      receiver is undefined or null. */
  function Get(v: Value, key: string): (r: Completion<Value>)
    ensures r.Throw? <==> Nullish(v)
    ensures r.Throw? ==> r.exc == TypeError(v)
    ensures r.Normal? ==> r.value == Field(v, key)
  {
    if Nullish(v) then Throw(TypeError(v)) else Normal(Field(v, key))
  }

  /** `a || b`: the left operand when it is truthy, otherwise the right. */
  function Or(a: Value, b: Value): (r: Value)
    ensures Truthy(a) ==> r == a
    ensures !Truthy(a) ==> r == b
  {
    if Truthy(a) then a else b
  }

  function Digit(d: nat): (c: char)
    requires d < 10
    ensures '0' <= c <= '9'
  {
    "0123456789"[d]
  }

  /** Decimal notation of a natural number, as `String(n)` writes it. */
  function NatToString(n: nat): (s: string)
    ensures |s| > 0
    ensures forall i | 0 <= i < |s| :: '0' <= s[i] <= '9'
    ensures n < 10 <==> |s| == 1
  {
    if n < 10 then [Digit(n)] else NatToString(n / 10) + [Digit(n % 10)]
  }

  /** `String(v)` for the values of this model. */
  function ToJsString(v: Value): string {
    match v
    case Undefined => "undefined"
    case Null => "null"
    case Bool(b) => if b then "true" else "false"
    case Num(n) => if n < 0 then "-" + NatToString(-n) else NatToString(n)
    case Str(s) => s
    case Obj(_) => "[object Object]"
  }

  /** The index properties a string spreads into an object literal, from
      index `i` on: `{...'ab'}` is `{0: 'a', 1: 'b'}`. */
  function StringEntries(s: string, i: nat): (m: map<string, Value>)
    requires i <= |s|
    ensures forall k | k in m :: m[k].Str? && |m[k].s| == 1
    decreases |s| - i
  {
    if i == |s| then map[] else StringEntries(s, i + 1)[NatToString(i) := Str([s[i]])]
  }

  /** The properties `...v` contributes to an object literal: an object's own
      properties, a string's characters, and nothing for any other value. */
  function Spread(v: Value): (m: map<string, Value>)
    ensures v.Obj? ==> m == v.fields
    ensures !v.Obj? && !v.Str? ==> m == map[]
    ensures v == Str("") ==> m == map[]
  {
    match v
    case Obj(f) => f
    case Str(s) => StringEntries(s, 0)
    case _ => map[]
  }

  /** Where a log line goes: the tracker's own logger (`opts.logger`) or
      `console.error`. */
  datatype Sink = ConsoleError | SuppliedLogger

  /** One call of a logging function: its message and the detail argument. */
  datatype LogEntry = LogEntry(sink: Sink, message: string, detail: Value)
}

=== FILE: Middleware.dfy ===
/** requestsTracker of lib/index.js as an event-driven state machine.  The
    middleware is created active; its one-time health check may disable it
    for good; every request entering it registers a 'finish' listener and
    calls `next()`; when the response finishes, an active tracker builds one
    document per listener and hands it to insertDocument without waiting. */
module Middleware {
  import opened Js
  import opened Tracking
  import EsClient

  /** What can happen to a middleware instance. */
  datatype Event =
      /** The middleware is invoked for response `id`; the clock reads `now`. */
    | Enter(id: nat, now: int)
      /** Response `id` emits 'finish' with these request and response objects. */
    | Finish(id: nat, req: Value, res: Value, now: int)
      /** The health check gets `reply`; the mapping fetch it chains gets
          `mappingReplies`. */
    | HealthCheckDone(reply: EsClient.Transport, mappingReplies: seq<EsClient.Transport>)

  /** The tracker, the start times of the pending 'finish' listeners of each
      response, how often `next()` was called, the documents handed to
      insertDocument, and the lines logged by document generation and the
      health check. */
  datatype State = State(
    tracker: Tracker,
    listeners: map<nat, seq<int>>,
    nextCalls: nat,
    inserted: seq<Value>,
    log: seq<LogEntry>)

  const DisabledMessage: string := "track-requests is disabled"

  function Init(opts: TrackerOptions): (s: State)
    ensures s.tracker.active
    ensures s.tracker == NewTracker(opts)
    ensures s.listeners == map[] && s.nextCalls == 0 && s.inserted == [] && s.log == []
  {
    State(NewTracker(opts), map[], 0, [], [])
  }

  /** The documents and log lines of the listeners that one 'finish' event
      runs, in registration order. */
  datatype Fired = Fired(docs: seq<Value>, log: seq<LogEntry>)

  function Fire(t: Tracker, starts: seq<int>, req: Value, res: Value, now: int): (r: Fired)
    ensures |r.docs| == |starts|
    ensures forall i | 0 <= i < |starts| :: r.docs[i] == GenerateTrackingDoc(t, Call(req, res, starts[i], now)).doc
  {
    if starts == [] then Fired([], [])
    else
      var first := GenerateTrackingDoc(t, Call(req, res, starts[0], now));
      var rest := Fire(t, starts[1..], req, res, now);
      assert forall i | 1 <= i < |starts| :: starts[i] == starts[1..][i - 1];
      Fired([first.doc] + rest.docs, first.log + rest.log)
  }

  /** Whether an event turns tracking off: a health check whose request is
      rejected. */
  predicate Disables(e: Event) {
    e.HealthCheckDone? && EsClient.RequestPromise(e.reply).Rejected?
  }

  function ListenersOf(s: State, id: nat): seq<int> {
    if id in s.listeners then s.listeners[id] else []
  }

  /** The catch of `healthCheck().then(getMapping)`: the chain rejects only
      when the health check does, since getMapping never rejects. */
  function Settle(s: State, reply: EsClient.Transport, mappingReplies: seq<EsClient.Transport>): (s': State)
    ensures s'.tracker.active == (s.tracker.active && !EsClient.RequestPromise(reply).Rejected?)
    ensures s'.tracker == s.tracker.(active := s'.tracker.active)
    ensures s'.listeners == s.listeners && s'.nextCalls == s.nextCalls && s'.inserted == s.inserted
    ensures EsClient.RequestPromise(reply).Rejected? ==>
              s'.log == s.log + [LogEntry(s.tracker.logger, DisabledMessage, EsClient.RequestPromise(reply).reason)]
    ensures EsClient.RequestPromise(reply).Pending? ==> s'.log == s.log
    ensures EsClient.RequestPromise(reply).Resolved? ==>
              s'.log == s.log + EsClient.GetMapping(s.tracker.client, mappingReplies).log
    ensures !EsClient.RequestPromise(reply).Rejected? ==>
              |s'.log| >= |s.log| && forall i | |s.log| <= i < |s'.log| :: s'.log[i].message != DisabledMessage
  {
    var client := s.tracker.client;
    var health := EsClient.HealthCheck(client, reply);
    var chained := if health.outcome.Resolved? then EsClient.GetMapping(client, mappingReplies) else health;
    var logged := s.(log := s.log + chained.log);
    if chained.outcome.Rejected? then
      logged.(tracker := s.tracker.(active := false),
              log := logged.log + [LogEntry(s.tracker.logger, DisabledMessage, chained.outcome.reason)])
    else logged
  }

  function Step(s: State, e: Event): (s': State)
    ensures s'.tracker.active == (s.tracker.active && !Disables(e))
    ensures s'.tracker == s.tracker.(active := s'.tracker.active)
    ensures s'.nextCalls == s.nextCalls + (if e.Enter? then 1 else 0)
    ensures !s.tracker.active || !e.Finish? ==> s'.inserted == s.inserted
    ensures s.inserted <= s'.inserted
  {
    match e
    case Enter(id, now) =>
      s.(listeners := s.listeners[id := ListenersOf(s, id) + [now]], nextCalls := s.nextCalls + 1)
    case Finish(id, req, res, now) =>
      if id !in s.listeners then s
      else if !s.tracker.active then s.(listeners := s.listeners - {id})
      else
        var fired := Fire(s.tracker, s.listeners[id], req, res, now);
        s.(listeners := s.listeners - {id}, inserted := s.inserted + fired.docs, log := s.log + fired.log)
    case HealthCheckDone(reply, mappingReplies) =>
      Settle(s, reply, mappingReplies)
  }

  function Run(s: State, events: seq<Event>): State
    decreases |events|
  {
    if events == [] then s else Run(Step(s, events[0]), events[1..])
  }

  function Enters(events: seq<Event>): nat
    decreases |events|
  {
    if events == [] then 0 else (if events[0].Enter? then 1 else 0) + Enters(events[1..])
  }

  // ------------------------------------------------------------------ lemmas

  /** Once disabled, tracking stays disabled and no document is inserted,
      whatever happens next. */
  lemma {:induction false} DisabledIsFinal(s: State, events: seq<Event>)
    requires !s.tracker.active
    ensures !Run(s, events).tracker.active
    ensures Run(s, events).inserted == s.inserted
    decreases |events|
  {
    if events != [] {
      DisabledIsFinal(Step(s, events[0]), events[1..]);
    }
  }

  /** Tracking is still on after a trace exactly when it was on before and no
      health check in the trace was rejected. */
  lemma {:induction false} ActiveUntilHealthCheckFails(s: State, events: seq<Event>)
    ensures Run(s, events).tracker.client == s.tracker.client
    ensures Run(s, events).tracker.active <==>
              s.tracker.active && forall i | 0 <= i < |events| :: !Disables(events[i])
    decreases |events|
  {
    if events != [] {
      var s1 := Step(s, events[0]);
      ActiveUntilHealthCheckFails(s1, events[1..]);
      assert forall i | 1 <= i < |events| :: events[i] == events[1..][i - 1];
    }
  }

  /** A middleware that is never told of a failed health check keeps
      tracking. */
  lemma StartsAndStaysActive(opts: TrackerOptions, events: seq<Event>)
    requires forall i | 0 <= i < |events| :: !Disables(events[i])
    ensures Run(Init(opts), events).tracker.active
  {
    ActiveUntilHealthCheckFails(Init(opts), events);
  }

  /** `next()` is called once per request, whether tracking is on or off. */
  lemma {:induction false} NextOncePerRequest(s: State, events: seq<Event>)
    ensures Run(s, events).nextCalls == s.nextCalls + Enters(events)
    decreases |events|
  {
    if events != [] {
      NextOncePerRequest(Step(s, events[0]), events[1..]);
    }
  }

  /** While inactive, a 'finish' event builds nothing, inserts nothing and
      logs nothing. */
  lemma FinishWhileInactive(s: State, id: nat, req: Value, res: Value, now: int)
    requires !s.tracker.active
    ensures Step(s, Finish(id, req, res, now)).inserted == s.inserted
    ensures Step(s, Finish(id, req, res, now)).log == s.log
  {
  }

  /** While active, the 'finish' event of a response with one listener hands
      exactly one document to insertDocument: the one generated from the
      start time that listener captured. */
  lemma FinishWhileActive(s: State, id: nat, start: int, req: Value, res: Value, now: int)
    requires s.tracker.active && id in s.listeners && s.listeners[id] == [start]
    ensures Step(s, Finish(id, req, res, now)).inserted ==
              s.inserted + [GenerateTrackingDoc(s.tracker, Call(req, res, start, now)).doc]
    ensures id !in Step(s, Finish(id, req, res, now)).listeners
  {
  }

  /** A request entering an active middleware and then finishing yields one
      inserted document, built from the entry time, and one `next()` call. */
  lemma EnterThenFinish(s: State, id: nat, entered: int, req: Value, res: Value, finished: int)
    requires s.tracker.active && id !in s.listeners
    ensures var s' := Run(s, [Enter(id, entered), Finish(id, req, res, finished)]);
            && s'.inserted == s.inserted + [GenerateTrackingDoc(s.tracker, Call(req, res, entered, finished)).doc]
            && s'.nextCalls == s.nextCalls + 1
            && s'.listeners == s.listeners
  {
    var s1 := Step(s, Enter(id, entered));
    assert s1.listeners[id] == [entered];
    FinishWhileActive(s1, id, entered, req, res, finished);
    var s2 := Step(s1, Finish(id, req, res, finished));
    var events := [Enter(id, entered), Finish(id, req, res, finished)];
    assert events[1..] == [Finish(id, req, res, finished)] && events[1..][1..] == [];
    assert Run(s, events) == Run(s1, events[1..]);
    assert Run(s1, events[1..]) == Run(s2, events[1..][1..]);
    assert Run(s, events) == s2;
    assert s2.listeners == s.listeners;
  }

  /** 'finish' listeners run once: a second 'finish' of the same response
      changes nothing. */
  lemma FinishRunsOnce(s: State, id: nat, req: Value, res: Value, now: int, req': Value, res': Value, now': int)
    ensures var s1 := Step(s, Finish(id, req, res, now));
            Step(s1, Finish(id, req', res', now')) == s1
  {
  }

  /** The generated document reaches insertDocument unchecked: when the
      default assembler fails, undefined is inserted; insertDocument then
      sends nothing, logs once and still resolves. */
  lemma UndefinedDocumentReachesInsert(s: State, id: nat, start: int, req: Value, res: Value, now: int,
                                       reply: EsClient.Transport)
    requires s.tracker.active && id in s.listeners && s.listeners[id] == [start]
    requires s.tracker.generateTrackingDoc.None?
    requires !BaseSucceeds(s.tracker.getters, Call(req, res, start, now))
             || ExtraFields(s.tracker.extraFields, Call(req, res, start, now)).Throw?
    requires s.tracker.client.indexProperties != map[]
    ensures var s' := Step(s, Finish(id, req, res, now));
            && s'.inserted == s.inserted + [Undefined]
            && |s'.log| == |s.log| + 1
    ensures var r := EsClient.InsertDocument(s.tracker.client, Undefined, reply);
            r.outcome == EsClient.Resolved(Undefined) && r.requests == [] && |r.log| == 1
  {
    var g := GenerateTrackingDoc(s.tracker, Call(req, res, start, now));
    assert Fire(s.tracker, [start], req, res, now) == Fired([g.doc], g.log);
    FinishWhileActive(s, id, start, req, res, now);
  }
}

=== FILE: Tracking.dfy ===
/** The Tracker of lib/tracker.js: a table of ten getters with defaults, the
    caller's overrides spread over it, and the assembler that turns a
    finished request into a flat tracking document.  The clock is the `now`
    field of a Call; the logger is the sink named in the log entries. */
module Tracking {
  import opened Js
  import EsClient

  /** The ten getter slots of the table, one per base key of a document. */
  datatype Slot =
    | Url | Method | User | Ip | StatusCode | ProcessingTime | CreatedAt | ErrorMessage | UserAgent | Body

  /** The document key a slot fills. */
  function KeyOf(s: Slot): string {
    match s
    case Url => "url"
    case Method => "method"
    case User => "user"
    case Ip => "ip"
    case StatusCode => "statusCode"
    case ProcessingTime => "processingTime"
    case CreatedAt => "createdAt"
    case ErrorMessage => "error"
    case UserAgent => "userAgent"
    case Body => "body"
  }

  /** The order in which the assembler calls the getters. */
  const SlotOrder: seq<Slot> :=
    [Url, Method, User, Ip, StatusCode, ProcessingTime, CreatedAt, ErrorMessage, UserAgent, Body]

  const BaseKeys: set<string> :=
    {"url", "method", "user", "ip", "statusCode", "processingTime", "createdAt", "error", "userAgent", "body"}

  lemma KeyOfInjective(s: Slot, s': Slot)
    requires s != s'
    ensures KeyOf(s) != KeyOf(s')
  {
  }

  lemma SlotOrderComplete(s: Slot)
    ensures s in SlotOrder && KeyOf(s) in BaseKeys
  {
  }

  /** What one getter call sees: the request and response objects, the start
      time captured when the middleware was entered, and the clock. */
  datatype Call = Call(req: Value, res: Value, startTime: int, now: int)

  /** A getter returns a value or throws. */
  type Getter = Call -> Completion<Value>

  datatype Getters = Getters(
    getUrl: Getter,
    getMethod: Getter,
    getUser: Getter,
    getIp: Getter,
    getStatusCode: Getter,
    getProcessingTime: Getter,
    getCreatedAt: Getter,
    getErrorMessage: Getter,
    getUserAgent: Getter,
    getBody: Getter)

  function Lookup(g: Getters, s: Slot): Getter {
    match s
    case Url => g.getUrl
    case Method => g.getMethod
    case User => g.getUser
    case Ip => g.getIp
    case StatusCode => g.getStatusCode
    case ProcessingTime => g.getProcessingTime
    case CreatedAt => g.getCreatedAt
    case ErrorMessage => g.getErrorMessage
    case UserAgent => g.getUserAgent
    case Body => g.getBody
  }

  /** The default status rule: 304 reads as 200, every other status is kept. */
  function NormalizeStatus(status: Value): (r: Value)
    ensures r != Num(304)
    ensures r != status ==> status == Num(304) && r == Num(200)
  {
    if status == Num(304) then Num(200) else status
  }

  lemma NormalizeStatusIdempotent(status: Value)
    ensures NormalizeStatus(NormalizeStatus(status)) == NormalizeStatus(status)
  {
  }

  /** `req.headers[name]`, which throws when the request or its headers are
      undefined or null. */
  function Header(req: Value, name: string): Completion<Value> {
    var headers :- Get(req, "headers");
    Get(headers, name)
  }

  function DefaultGetUrl(c: Call): Completion<Value> { Get(c.req, "url") }
  function DefaultGetMethod(c: Call): Completion<Value> { Get(c.req, "method") }
  function DefaultGetUser(c: Call): Completion<Value> { Normal(Str("anonymous")) }
  function DefaultGetIp(c: Call): Completion<Value> { Header(c.req, "x-real-ip") }
  function DefaultGetStatusCode(c: Call): Completion<Value> {
    var status :- Get(c.res, "statusCode");
    Normal(NormalizeStatus(status))
  }
  function DefaultGetProcessingTime(c: Call): Completion<Value> { Normal(Num(c.now - c.startTime)) }
  function DefaultGetCreatedAt(c: Call): Completion<Value> { Normal(Num(c.now)) }
  function DefaultGetErrorMessage(c: Call): Completion<Value> { Get(c.req, "error") }
  function DefaultGetUserAgent(c: Call): Completion<Value> { Header(c.req, "user-agent") }
  function DefaultGetBody(c: Call): Completion<Value> { Get(c.req, "body") }

  /** The getter table before any override. */
  const DefaultGetters: Getters :=
    Getters(DefaultGetUrl, DefaultGetMethod, DefaultGetUser, DefaultGetIp, DefaultGetStatusCode,
            DefaultGetProcessingTime, DefaultGetCreatedAt, DefaultGetErrorMessage, DefaultGetUserAgent, DefaultGetBody)

  /** `{...defaults, ...opts.getters}`: an overridden slot takes the caller's
      getter, every other slot keeps the one it had. */
  function Merge(base: Getters, overrides: map<Slot, Getter>): (r: Getters)
    ensures forall s: Slot :: Lookup(r, s) == (if s in overrides then overrides[s] else Lookup(base, s))
  {
    Getters(Pick(base, overrides, Url), Pick(base, overrides, Method), Pick(base, overrides, User),
            Pick(base, overrides, Ip), Pick(base, overrides, StatusCode), Pick(base, overrides, ProcessingTime),
            Pick(base, overrides, CreatedAt), Pick(base, overrides, ErrorMessage),
            Pick(base, overrides, UserAgent), Pick(base, overrides, Body))
  }

  /** Spreading no overrides keeps the table. */
  lemma MergeNothing(g: Getters)
    ensures Merge(g, map[]) == g
  {
  }

  function Pick(base: Getters, overrides: map<Slot, Getter>, s: Slot): Getter {
    if s in overrides then overrides[s] else Lookup(base, s)
  }

  // ----------------------------------------------------------------- assembly

  /** The optional `getExtraFields` result, as the properties it spreads. */
  function ExtraFields(extra: Option<Getter>, c: Call): (r: Completion<map<string, Value>>)
    ensures extra.None? ==> r == Normal(map[])
    ensures extra.Some? ==> (r.Throw? <==> extra.value(c).Throw?)
    ensures extra.Some? && r.Throw? ==> r.exc == extra.value(c).exc
    ensures extra.Some? && r.Normal? ==> r.value == Spread(extra.value(c).value)
  {
    match extra
    case None => Normal(map[])
    case Some(f) => var v :- f(c); Normal(Spread(v))
  }

  /** Every base getter returns normally on this call. */
  predicate BaseSucceeds(g: Getters, c: Call) {
    forall s: Slot :: Lookup(g, s)(c).Normal?
  }

  /** Where a slot stands in the evaluation order. */
  function SlotIndex(s: Slot): (i: nat)
    ensures i < |SlotOrder| && SlotOrder[i] == s
  {
    match s
    case Url => 0
    case Method => 1
    case User => 2
    case Ip => 3
    case StatusCode => 4
    case ProcessingTime => 5
    case CreatedAt => 6
    case ErrorMessage => 7
    case UserAgent => 8
    case Body => 9
  }

  /** Calls the getters of `slots` in order and collects their values under
      the slots' keys; the first getter that throws ends the evaluation with
      its exception. */
  function EvalSlots(g: Getters, slots: seq<Slot>, c: Call): (r: Completion<map<string, Value>>)
    ensures r.Normal? <==> forall i | 0 <= i < |slots| :: Lookup(g, slots[i])(c).Normal?
    ensures r.Normal? ==> r.value.Keys == set i | 0 <= i < |slots| :: KeyOf(slots[i])
    ensures r.Normal? ==> forall i | 0 <= i < |slots| ::
              KeyOf(slots[i]) in r.value && r.value[KeyOf(slots[i])] == Lookup(g, slots[i])(c).value
    ensures r.Throw? ==> exists i | 0 <= i < |slots| ::
              Lookup(g, slots[i])(c) == Throw(r.exc) && forall j | 0 <= j < i :: Lookup(g, slots[j])(c).Normal?
  {
    if slots == [] then Normal(map[])
    else
      var v :- Lookup(g, slots[0])(c);
      var rest :- EvalSlots(g, slots[1..], c);
      ConsValues(g, slots, c, v, rest);
      Normal(rest[KeyOf(slots[0]) := v])
  }

  /** Binding the first slot's key in front of the rest's values keeps every
      slot's key bound to its getter's value, since distinct slots have
      distinct keys. */
  lemma ConsValues(g: Getters, slots: seq<Slot>, c: Call, v: Value, rest: map<string, Value>)
    requires slots != [] && Lookup(g, slots[0])(c) == Normal(v)
    requires forall i | 0 <= i < |slots[1..]| ::
               Lookup(g, slots[1..][i])(c).Normal? && KeyOf(slots[1..][i]) in rest
               && rest[KeyOf(slots[1..][i])] == Lookup(g, slots[1..][i])(c).value
    ensures forall i | 0 <= i < |slots| ::
              Lookup(g, slots[i])(c).Normal? && KeyOf(slots[i]) in rest[KeyOf(slots[0]) := v]
              && rest[KeyOf(slots[0]) := v][KeyOf(slots[i])] == Lookup(g, slots[i])(c).value
  {
    forall i | 0 <= i < |slots|
      ensures Lookup(g, slots[i])(c).Normal? && KeyOf(slots[i]) in rest[KeyOf(slots[0]) := v]
              && rest[KeyOf(slots[0]) := v][KeyOf(slots[i])] == Lookup(g, slots[i])(c).value
    {
      if i > 0 {
        assert slots[i] == slots[1..][i - 1];
        if slots[i] != slots[0] {
          KeyOfInjective(slots[i], slots[0]);
        }
      }
    }
  }

  lemma BaseSucceedsInOrder(g: Getters, c: Call)
    ensures BaseSucceeds(g, c) <==> forall i | 0 <= i < |SlotOrder| :: Lookup(g, SlotOrder[i])(c).Normal?
  {
    if forall i | 0 <= i < |SlotOrder| :: Lookup(g, SlotOrder[i])(c).Normal? {
      forall s: Slot ensures Lookup(g, s)(c).Normal? {
        var i := SlotIndex(s);
        assert Lookup(g, SlotOrder[i])(c).Normal?;
      }
    }
  }

  lemma BaseValuesBySlot(g: Getters, c: Call, m: map<string, Value>)
    requires forall i | 0 <= i < |SlotOrder| :: Lookup(g, SlotOrder[i])(c).Normal?
    requires forall i | 0 <= i < |SlotOrder| :: KeyOf(SlotOrder[i]) in m && m[KeyOf(SlotOrder[i])] == Lookup(g, SlotOrder[i])(c).value
    ensures forall s: Slot :: Lookup(g, s)(c).Normal? && KeyOf(s) in m && m[KeyOf(s)] == Lookup(g, s)(c).value
  {
    forall s: Slot ensures Lookup(g, s)(c).Normal? && KeyOf(s) in m && m[KeyOf(s)] == Lookup(g, s)(c).value {
      var i := SlotIndex(s);
      assert KeyOf(SlotOrder[i]) in m;
    }
  }

  /** The ten base fields, in the order the object literal evaluates them;
      the first getter that throws ends the evaluation with its exception. */
  function BaseFields(g: Getters, c: Call): (r: Completion<map<string, Value>>)
    ensures r.Normal? <==> BaseSucceeds(g, c)
    ensures r.Normal? ==> r.value.Keys == BaseKeys
    ensures r.Normal? ==> forall s: Slot :: KeyOf(s) in r.value && r.value[KeyOf(s)] == Lookup(g, s)(c).value
    ensures r.Throw? ==> exists i | 0 <= i < |SlotOrder| ::
              Lookup(g, SlotOrder[i])(c) == Throw(r.exc) && forall j | 0 <= j < i :: Lookup(g, SlotOrder[j])(c).Normal?
  {
    BaseFieldsKeys(g, c);
    BaseFieldsValues(g, c);
    EvalSlots(g, SlotOrder, c)
  }

  lemma BaseFieldsKeys(g: Getters, c: Call)
    ensures EvalSlots(g, SlotOrder, c).Normal? <==> BaseSucceeds(g, c)
    ensures EvalSlots(g, SlotOrder, c).Normal? ==> EvalSlots(g, SlotOrder, c).value.Keys == BaseKeys
  {
    BaseSucceedsInOrder(g, c);
    AllSlotsInOrder();
  }

  lemma BaseFieldsValues(g: Getters, c: Call)
    ensures EvalSlots(g, SlotOrder, c).Normal? ==>
              forall s: Slot :: Lookup(g, s)(c).Normal? && KeyOf(s) in EvalSlots(g, SlotOrder, c).value
                                && EvalSlots(g, SlotOrder, c).value[KeyOf(s)] == Lookup(g, s)(c).value
  {
    var r := EvalSlots(g, SlotOrder, c);
    if r.Normal? {
      BaseValuesBySlot(g, c, r.value);
    }
  }

  lemma OverlayKeepsBase(g: Getters, c: Call, base: map<string, Value>, extras: map<string, Value>)
    requires BaseSucceeds(g, c)
    requires forall s: Slot :: KeyOf(s) in base && base[KeyOf(s)] == Lookup(g, s)(c).value
    ensures forall s: Slot | KeyOf(s) !in extras :: KeyOf(s) in base + extras && (base + extras)[KeyOf(s)] == Lookup(g, s)(c).value
  {
    forall s: Slot | KeyOf(s) !in extras
      ensures KeyOf(s) in base + extras && (base + extras)[KeyOf(s)] == Lookup(g, s)(c).value
    {
      assert base[KeyOf(s)] == Lookup(g, s)(c).value;
    }
  }

  /** The object literal of the default generateTrackingDoc: the ten base
      fields, with the extra fields spread over them. */
  function BuildDoc(g: Getters, extra: Option<Getter>, c: Call): (r: Completion<map<string, Value>>)
    ensures r.Normal? <==> BaseSucceeds(g, c) && ExtraFields(extra, c).Normal?
    ensures r.Normal? ==> r.value.Keys == BaseKeys + ExtraFields(extra, c).value.Keys
    ensures r.Normal? ==> forall k | k in ExtraFields(extra, c).value :: r.value[k] == ExtraFields(extra, c).value[k]
    ensures r.Normal? ==> forall s: Slot | KeyOf(s) !in ExtraFields(extra, c).value ::
              KeyOf(s) in r.value && r.value[KeyOf(s)] == Lookup(g, s)(c).value
    ensures r.Normal? && extra.None? ==> r.value.Keys == BaseKeys
    ensures r.Throw? ==> (exists s: Slot :: Lookup(g, s)(c) == Throw(r.exc)) || ExtraFields(extra, c) == Throw(r.exc)
  {
    var base :- BaseFields(g, c);
    var extras :- ExtraFields(extra, c);
    OverlayKeepsBase(g, c, base, extras);
    Normal(base + extras)
  }

  lemma AllSlotsInOrder()
    ensures forall s: Slot :: s in SlotOrder
    ensures (set i | 0 <= i < |SlotOrder| :: KeyOf(SlotOrder[i])) == BaseKeys
  {
    forall s: Slot ensures s in SlotOrder {
      SlotOrderComplete(s);
    }
    var ks := set i | 0 <= i < |SlotOrder| :: KeyOf(SlotOrder[i]);
    assert KeyOf(SlotOrder[0]) in ks && KeyOf(SlotOrder[1]) in ks && KeyOf(SlotOrder[2]) in ks;
    assert KeyOf(SlotOrder[3]) in ks && KeyOf(SlotOrder[4]) in ks && KeyOf(SlotOrder[5]) in ks;
    assert KeyOf(SlotOrder[6]) in ks && KeyOf(SlotOrder[7]) in ks && KeyOf(SlotOrder[8]) in ks;
    assert KeyOf(SlotOrder[9]) in ks;
  }

  // ------------------------------------------------------------------ tracker

  /** A replacement for the whole assembler (`opts.generateTrackingDoc`). */
  type Generator = Call -> Value

  datatype Tracker = Tracker(
    active: bool,
    logger: Sink,
    getters: Getters,
    extraFields: Option<Getter>,
    generateTrackingDoc: Option<Generator>,
    client: EsClient.Client)

  /** The constructor's `opts`.  `getters` holds the overridden slots only;
      `getExtraFields` is the extra-fields producer found among them. */
  datatype TrackerOptions = TrackerOptions(
    getters: map<Slot, Getter>,
    getExtraFields: Option<Getter>,
    generateTrackingDoc: Option<Generator>,
    suppliedLogger: bool,
    elasticSearchOptions: EsClient.ClientOptions)

  /** `new Tracker()` with no options: no overrides, console logging. */
  const NoTrackerOptions: TrackerOptions :=
    TrackerOptions(map[], None, None, false, EsClient.NoOptions)

  function NewTracker(opts: TrackerOptions): (t: Tracker)
    ensures t.active
    ensures t.logger == (if opts.suppliedLogger then SuppliedLogger else ConsoleError)
    ensures forall s: Slot :: Lookup(t.getters, s) ==
              (if s in opts.getters then opts.getters[s] else Lookup(DefaultGetters, s))
    ensures t.extraFields == opts.getExtraFields
    ensures t.generateTrackingDoc == opts.generateTrackingDoc
    ensures t.client == EsClient.NewClient(opts.elasticSearchOptions)
  {
    Tracker(true,
            if opts.suppliedLogger then SuppliedLogger else ConsoleError,
            Merge(DefaultGetters, opts.getters),
            opts.getExtraFields,
            opts.generateTrackingDoc,
            EsClient.NewClient(opts.elasticSearchOptions))
  }

  const GenerateFailedMessage: string := "track-requests: cannot generate tracking doc"

  /** The document and the log lines of one generateTrackingDoc call. */
  datatype Generated = Generated(doc: Value, log: seq<LogEntry>)

  /** generateTrackingDoc: the caller's replacement when supplied; otherwise
      the default assembler, which turns a throw into one log line and an
      undefined document. */
  function GenerateTrackingDoc(t: Tracker, c: Call): (r: Generated)
    ensures t.generateTrackingDoc.Some? ==> r == Generated(t.generateTrackingDoc.value(c), [])
    ensures t.generateTrackingDoc.None? ==>
              (r.log == [] <==> BuildDoc(t.getters, t.extraFields, c).Normal?)
    ensures t.generateTrackingDoc.None? && r.log == [] ==>
              r.doc == Obj(BuildDoc(t.getters, t.extraFields, c).value) && BaseKeys <= r.doc.fields.Keys
    ensures t.generateTrackingDoc.None? && r.log != [] ==>
              r.doc == Undefined
              && r.log == [LogEntry(t.logger, GenerateFailedMessage, BuildDoc(t.getters, t.extraFields, c).exc)]
  {
    match t.generateTrackingDoc
    case Some(generate) => Generated(generate(c), [])
    case None =>
      match BuildDoc(t.getters, t.extraFields, c)
      case Normal(doc) => Generated(Obj(doc), [])
      case Throw(e) => Generated(Undefined, [LogEntry(t.logger, GenerateFailedMessage, e)])
  }

  // ------------------------------------------------------------------ lemmas

  /** The slot whose key is `k`. */
  function SlotNamed(k: string): (s: Slot)
    requires k in BaseKeys
    ensures KeyOf(s) == k
  {
    if k == "url" then Url
    else if k == "method" then Method
    else if k == "user" then User
    else if k == "ip" then Ip
    else if k == "statusCode" then StatusCode
    else if k == "processingTime" then ProcessingTime
    else if k == "createdAt" then CreatedAt
    else if k == "error" then ErrorMessage
    else if k == "userAgent" then UserAgent
    else Body
  }

  /** The default getters succeed exactly when the request, its headers and
      the response can be read from. */
  lemma DefaultGettersSucceed(c: Call)
    ensures BaseSucceeds(DefaultGetters, c) <==>
              !Nullish(c.req) && !Nullish(c.res) && !Nullish(Field(c.req, "headers"))
  {
    if !Nullish(c.req) && !Nullish(c.res) && !Nullish(Field(c.req, "headers")) {
      forall s: Slot ensures Lookup(DefaultGetters, s)(c).Normal? {
        match s
        case Url =>
        case Method =>
        case User =>
        case Ip =>
        case StatusCode =>
        case ProcessingTime =>
        case CreatedAt =>
        case ErrorMessage =>
        case UserAgent =>
        case Body =>
      }
    } else if Nullish(c.req) {
      assert Lookup(DefaultGetters, Url)(c).Throw?;
    } else if Nullish(c.res) {
      assert Lookup(DefaultGetters, StatusCode)(c).Throw?;
    } else {
      assert Lookup(DefaultGetters, Ip)(c).Throw?;
    }
  }

  /** The fields of the document the default getters build: the user is
      'anonymous', the ip and user agent come from the request headers, the
      status is normalized, the processing time is the clock minus the start
      time, the creation time is the clock, and url, method, error and body
      are copied from the request. */
  predicate IsDefaultDocument(d: map<string, Value>, c: Call) {
    && d.Keys == BaseKeys
    && d[KeyOf(Url)] == Field(c.req, "url")
    && d[KeyOf(Method)] == Field(c.req, "method")
    && d[KeyOf(User)] == Str("anonymous")
    && d[KeyOf(Ip)] == Field(Field(c.req, "headers"), "x-real-ip")
    && d[KeyOf(StatusCode)] == NormalizeStatus(Field(c.res, "statusCode"))
    && d[KeyOf(ProcessingTime)] == Num(c.now - c.startTime)
    && d[KeyOf(CreatedAt)] == Num(c.now)
    && d[KeyOf(ErrorMessage)] == Field(c.req, "error")
    && d[KeyOf(UserAgent)] == Field(Field(c.req, "headers"), "user-agent")
    && d[KeyOf(Body)] == Field(c.req, "body")
  }

  /** Without overrides the assembler succeeds exactly when the request, its
      headers and the response are not undefined or null, and then builds
      the default document. */
  lemma DefaultDocument(c: Call)
    ensures BuildDoc(DefaultGetters, None, c).Normal? <==>
              !Nullish(c.req) && !Nullish(c.res) && !Nullish(Field(c.req, "headers"))
    ensures BuildDoc(DefaultGetters, None, c).Normal? ==> IsDefaultDocument(BuildDoc(DefaultGetters, None, c).value, c)
  {
    DefaultGettersSucceed(c);
    var r := BuildDoc(DefaultGetters, None, c);
    if r.Normal? {
      DefaultValues(r.value, c);
    }
  }

  lemma DefaultValues(d: map<string, Value>, c: Call)
    requires d.Keys == BaseKeys
    requires forall s: Slot :: Lookup(DefaultGetters, s)(c).Normal? && KeyOf(s) in d
                               && d[KeyOf(s)] == Lookup(DefaultGetters, s)(c).value
    ensures IsDefaultDocument(d, c)
  {
  }

  /** With the default processing-time getter (any table that does not
      override it), the field is the clock minus the start time, and never
      negative when the clock has not gone back. */
  lemma ProcessingTimeIsElapsed(g: Getters, extra: Option<Getter>, c: Call)
    requires Lookup(g, ProcessingTime) == DefaultGetProcessingTime
    requires BaseSucceeds(g, c)
    requires ExtraFields(extra, c).Normal? && KeyOf(ProcessingTime) !in ExtraFields(extra, c).value
    ensures KeyOf(ProcessingTime) in BuildDoc(g, extra, c).value
    ensures BuildDoc(g, extra, c).value[KeyOf(ProcessingTime)] == Num(c.now - c.startTime)
    ensures c.now >= c.startTime ==> BuildDoc(g, extra, c).value[KeyOf(ProcessingTime)].n >= 0
  {
    SlotKept(g, extra, c, ProcessingTime);
  }

  /** A slot no extra field hides keeps its getter's value. */
  lemma SlotKept(g: Getters, extra: Option<Getter>, c: Call, s: Slot)
    requires BaseSucceeds(g, c) && ExtraFields(extra, c).Normal? && KeyOf(s) !in ExtraFields(extra, c).value
    ensures KeyOf(s) in BuildDoc(g, extra, c).value
    ensures Lookup(g, s)(c).Normal? && BuildDoc(g, extra, c).value[KeyOf(s)] == Lookup(g, s)(c).value
  {
  }

  /** Overriding one getter changes that slot only: the document is the one
      the original table builds, with the overridden key rebound. */
  lemma OverrideOneSlot(g: Getters, s: Slot, f: Getter)
    ensures Lookup(Merge(g, map[s := f]), s) == f
    ensures forall s': Slot | s' != s :: Lookup(Merge(g, map[s := f]), s') == Lookup(g, s')
  {
  }

  lemma OverrideOneGetter(g: Getters, s: Slot, f: Getter, extra: Option<Getter>, c: Call)
    requires BaseSucceeds(g, c) && f(c).Normal?
    requires ExtraFields(extra, c).Normal? && KeyOf(s) !in ExtraFields(extra, c).value
    ensures BuildDoc(Merge(g, map[s := f]), extra, c) == Normal(BuildDoc(g, extra, c).value[KeyOf(s) := f(c).value])
  {
    var g' := Merge(g, map[s := f]);
    OverrideOneSlot(g, s, f);
    assert BaseSucceeds(g', c) by {
      forall s': Slot ensures Lookup(g', s')(c).Normal? {
        assert s' == s || Lookup(g', s') == Lookup(g, s');
      }
    }
    var d := BuildDoc(g, extra, c).value;
    var d' := BuildDoc(g', extra, c).value;
    SlotKept(g, extra, c, s);
    SlotKept(g', extra, c, s);
    forall k | k in d && k != KeyOf(s) ensures d'[k] == d[k] {
      OverrideKeepsKey(g, g', s, extra, c, k);
    }
    Rebind(d, d', KeyOf(s), f(c).value);
  }

  /** A key other than the overridden slot's holds the same value in both
      documents: an extra field's value, or an untouched getter's. */
  lemma OverrideKeepsKey(g: Getters, g': Getters, s: Slot, extra: Option<Getter>, c: Call, k: string)
    requires forall s': Slot | s' != s :: Lookup(g', s') == Lookup(g, s')
    requires BaseSucceeds(g, c) && BaseSucceeds(g', c) && ExtraFields(extra, c).Normal?
    requires (k in BaseKeys || k in ExtraFields(extra, c).value) && k != KeyOf(s)
    ensures k in BuildDoc(g, extra, c).value && k in BuildDoc(g', extra, c).value
    ensures BuildDoc(g', extra, c).value[k] == BuildDoc(g, extra, c).value[k]
  {
    if k !in ExtraFields(extra, c).value {
      var sk := SlotNamed(k);
      assert sk != s;
      SlotKept(g, extra, c, sk);
      SlotKept(g', extra, c, sk);
    }
  }

  /** Two maps with the same keys that agree off `k0` differ by one binding. */
  lemma Rebind(d: map<string, Value>, d': map<string, Value>, k0: string, v0: Value)
    requires d'.Keys == d.Keys && k0 in d && d'[k0] == v0
    requires forall k | k in d && k != k0 :: d'[k] == d[k]
    ensures d' == d[k0 := v0]
  {
  }

  /** The default mapping has exactly the keys of a document built without
      extra fields. */
  lemma DefaultMappingCoversBaseKeys()
    ensures EsClient.DefaultIndexProperties.Keys == BaseKeys
  {
  }

  /** What insertDocument sends for a generated document under the default
      mapping: every base key, with the document's truthy values kept and
      its falsy ones turned into null; extra fields are dropped. */
  lemma CleanGeneratedDocument(g: Getters, extra: Option<Getter>, c: Call)
    requires BaseSucceeds(g, c) && ExtraFields(extra, c).Normal?
    ensures var d := BuildDoc(g, extra, c).value;
            var r := EsClient.Clean(EsClient.DefaultIndexProperties, Obj(d));
            && r.Normal?
            && r.value.Keys == BaseKeys
            && forall k | k in BaseKeys :: k in d && r.value[k] == (if Truthy(d[k]) then d[k] else Null)
  {
    var d := BuildDoc(g, extra, c).value;
    DefaultMappingCoversBaseKeys();
    var r := EsClient.Clean(EsClient.DefaultIndexProperties, Obj(d));
    forall k | k in BaseKeys ensures k in d && r.value[k] == (if Truthy(d[k]) then d[k] else Null) {
      assert Field(Obj(d), k) == d[k];
    }
  }
}
